=== FILE: README.md ===
# MockDB in Dafny

A model of `MockDB` (`mock-db.js`), the in-process document store behind the
cards application. The store keeps a mapping from integer key to document and
an auto-increment counter. It offers `insert`, `select`, `selectAll` and
`delete`. At construction it loads a JSON snapshot, and at exit it dumps the
same descending array that `selectAll` returns.

The model is functional. A `Store(docs: map<int, Doc>, counter: nat)` value
stands for the object's enumerable properties plus the closure variable
`autoIncrementId`. Every operation is a pure function. Where the JavaScript
mutates the object, the function returns the reply together with the next
store. A Bluebird promise becomes a `Result`: `Ok` when it resolves, `Err`
carrying an `Error` when it rejects.

Modules:

- `Results`: `Option`, `Result`, and the store's three errors.
- `Documents`: documents (`Doc`), the records callers insert (`Data`), and `Build`, the `{ id } + data` merge.
- `DocOrder`: the stable sort by `id`, descending, used by `_toArray`.
- `MockDb`: the store, its invariant, and the operations `Open`, `NextId`, `Insert`, `Select`, `Delete`, `ToArray`, `SelectAll`, `Dump` and `Load`, with the lemmas that relate them.
- `Sessions`: sequences of calls run one after another. This is where the counter and issued-key properties are stated.

`SelectAll` (mock-db.js:67-69) and `Dump` (mock-db.js:103-107) are both
`ToArray`, so their properties are the rows for `ToArray`.

Behaviour that follows from the code and differs from an idealised store:

- `Insert` lays `data` over `{ id: key }`, so a caller-supplied `id` wins inside
  the document, but the document is still stored under the generated key.
  A dump and reload then moves it to the key its own `id` names
  (`CallerIdMovesDocumentOnReload`). An idealised store would let the
  generated id win; this code lets `data.id` win, and so does the model.
- The counter advances before the duplicate check, so a failed insert still
  consumes an id.
- `select` and `insert` hand back the stored object itself; only `_toArray`
  clones. Documents are values here, so no copy-isolation property is claimed.
- After a restart the counter is `max(0, largest stored document id + 1)`,
  and 0 for an empty store (`ReloadCounterFromDocIds`). When every document sits under its own id, that
  is the largest stored key plus one, so an id that was handed out and then
  deleted from the top is handed out again (`ReloadReissuesTopKey`,
  `ReloadReissuesDeletedTopKey`). Ids are unique only within one run. With a
  caller-supplied `id` the reloaded counter can jump above the old one: one
  insert of `{id: 7}` into an empty store takes the counter from 1 to 8.
- Two inserts carrying the same caller-supplied `id` are kept under two keys
  while the store runs. A dump and reload collapses them into one entry under
  that `id`, so one of the two documents is lost
  (`SameCallerIdCollapsesOnReload`). In the source the document under the
  later key survives. The model does not state which one survives, because
  it leaves the order of equal ids in the sorted array open.

## Model

| member | source | states |
|---|---|---|
| MockDb.Open | mock-db.js:12-29 | A missing or empty name is rejected with `NameRequired`, and every other name is accepted. An accepted store is the empty store when there is no snapshot, and otherwise the loaded snapshot. The store then satisfies the key-below-counter invariant and has every document under its own id. |
| MockDb.NextId | mock-db.js:20-25 | The getter yields the current counter and leaves it one larger, without touching the documents. Under the invariant, the yielded id is free and the invariant still holds. |
| Documents.Build | mock-db.js:45-48 | The built document keeps every field of `data`. Its `id` is the generated key unless `data` supplies its own `id`, and then it is that id. |
| MockDb.Insert | mock-db.js:42-54 | The counter always advances by one. If the drawn key is occupied, the result is `AlreadyExists` and the map is unchanged. Otherwise exactly one entry is added at that key, holding the returned document, and all other entries stay the same. Under the invariant, insert always succeeds and keeps the invariant. |
| MockDb.Select | mock-db.js:57-64 | Select succeeds exactly when the key is present, and then returns the stored document. Otherwise it fails with `DoesNotExist` naming that key. |
| MockDb.Delete | mock-db.js:71-80 | `success` is true exactly when the key was present. Afterwards the key is absent. Every other key keeps its presence and its document, and the counter is unchanged. A failed delete changes nothing, and the invariant is kept. |
| MockDb.Listing | mock-db.js:83-84 | The enumeration of the stored documents has one element per key. Each document occurs exactly as often as keys hold it. |
| DocOrder.SortDesc | mock-db.js:86 | The sorted array is non-increasing in `id` and is a permutation of its input. |
| MockDb.ToArray | mock-db.js:82-88 | The array view (`selectAll`, `_dumpToFile`) has one element per stored entry and is sorted by `id` in non-increasing order. It is a permutation of the map's values: each document occurs as often as keys hold it. An empty store yields the empty array. |
| MockDb.ToArrayMembers | mock-db.js:82-88 | A document is in the array view exactly when some key holds it. |
| MockDb.LoadKeys | mock-db.js:90-101 | The keys after loading are exactly the ids present in the snapshot. |
| MockDb.LoadLastWins | mock-db.js:95-98 | When a snapshot has several documents with the same id, the last of them is the one stored under that id. |
| MockDb.LoadValues | mock-db.js:95-98 | Every loaded document comes from the snapshot and is stored under its own `id`. |
| MockDb.LoadCounter | mock-db.js:91-100 | The loaded counter exceeds every snapshot id. It is either 0 or one more than some snapshot id, which means it is `max(0, max id + 1)`. |
| MockDb.LoadWellFormed | mock-db.js:90-101 | A loaded store satisfies the key-below-counter invariant and stores each document under its own id. |
| MockDb.InsertThenSelect | mock-db.js:42-64 | Under the invariant, insert succeeds. Selecting the generated key afterwards returns the inserted document, which is `data` laid over that key. |
| MockDb.DeleteThenSelect | mock-db.js:57-80 | After a delete, selecting that key fails with `DoesNotExist`. A second delete reports false and changes nothing. |
| MockDb.LoadListedDocs | mock-db.js:95-98 | Loading an array reproduces a map whenever the array meets two conditions: every element is the document stored under its own `id`, and every key is some element's `id`. |
| MockDb.DumpLoadRoundTrip | mock-db.js:90-107 | Loading the dumped array reproduces the stored map whenever every document's `id` equals its key. |
| MockDb.ReloadCounter | mock-db.js:90-107 | When every document's `id` equals its key, the counter after a dump and a reload is above every stored key. It is 0 or one past a stored key. For a valid store it never exceeds the counter before the dump. |
| MockDb.ReloadCounterFromDocIds | mock-db.js:90-107 | For any store, the counter after a dump and a reload is above every stored document's `id`, and it is 0 or one past some stored document's `id`. |
| MockDb.ReloadResumesAfterLargestKey | mock-db.js:97 | When every document's `id` equals its key, the counter after a dump and a reload is one past the largest stored key (if that key is at least -1). |
| MockDb.ReloadReissuesTopKey | mock-db.js:20-25 | Take a valid store whose documents sit under their own ids, and whose last handed-out key is no longer stored. A dump and a reload then leave the counter below its old value, so that key is handed out again. |
| MockDb.ReloadReissuesDeletedTopKey | mock-db.js:20-25 | Insert three documents, delete key 2, then dump and reload: the next insert gets key 2 again. The third insert had already received that key. |
| MockDb.SharedIdCollapsesOnReload | mock-db.js:90-107 | In a non-empty store whose documents all carry one `id`, whatever keys hold them, a dump and reload leaves a single entry. That entry is under that `id` and holds one of the stored documents. |
| MockDb.SameCallerIdCollapsesOnReload | mock-db.js:45-52 | Two inserts of documents with the same caller `id` 7 are stored under keys 0 and 1. After a dump and reload only key 7 remains, holding one of the two documents. |
| MockDb.CallerIdMovesDocumentOnReload | mock-db.js:45-52 | Inserting `{id: 7}` into an empty store keeps it under key 0 with `id` 7. A dump and reload moves it to key 7 and takes the counter from 1 to 8. |
| Sessions.Step | mock-db.js:42-80 | Only an insert moves the counter, by exactly one. Every call keeps the invariant. An insert on a valid store replies with the document now stored at the old counter. No call introduces any key except the one an insert draws. |
| Sessions.IssuedKeysConsecutive | mock-db.js:20-25 | Over any sequence of calls, the ids handed out are the consecutive integers starting at the initial counter, one per insert, whether or not the insert succeeds. The final counter is the initial one plus the number of inserts. |
| Sessions.IssuedKeysIncrease | mock-db.js:44 | The ids handed out strictly increase in call order, so none is handed out twice. They all lie between the initial and the final counter, and the counter never decreases. |
| Sessions.RunKeepsValid | mock-db.js:42-80 | Starting from a valid store, every call keeps the invariant and every insert succeeds. There is one reply per call. Every final key was present at the start or was handed out during the run. |

## Left out

- File-system I/O (`fs.existsSync`, `readJsonSync`, `writeJsonSync`) and the dump path: load is a function of the snapshot's documents (`None` when the file is absent), and the dump is the array that would be written.
- Error message text: the rejections carry `Error` values. The exact message strings are shown beside the constructors but are not computed.
- Process `SIGINT` and `exit` handlers (mock-db.js:31-39): lifecycle plumbing with no store logic.
- Bluebird promises: each operation returns its `Result` directly; there is no asynchrony to model.
- Conversion between the string route parameters and numeric property keys, and the store object's non-enumerable and prototype properties: keys are `int` throughout.
- JavaScript truthiness in `if (this[id])` and `if (!doc)`: documents are always objects, so both are map membership.
- Aliasing and deep cloning: `insert` and `select` return the live stored object (mock-db.js:52-53, 59-63), so in the source a caller who mutates the result changes the store. Only `_toArray` clones. Documents here are immutable values, so this aliasing is not modelled, and no copy-isolation property is claimed either way.
- Documents.Build: a caller-supplied `id` that is not an integer is not modelled. `Data.id` is an optional integer, and `Value.Num` holds integers only, so fractional numbers, arrays and nested objects cannot be field values.
- Documents.Build: the caller's `id` is kept in `Data.id`, apart from the other fields. A `fields` map holding the key `"id"` has no JavaScript counterpart: `_.assign` would let that value become the document's `id`, while `Build` keeps it as an ordinary field.
- MockDb.LoadCounter: ids and the counter are JavaScript numbers (IEEE doubles); the model uses unbounded `int`. At 2^53, `+ 1` in `doc.id + 1` (mock-db.js:97) and `autoIncrementId++` (mock-db.js:23) has no effect. Above 2^53, `+ 1` either has no effect or skips a value. A snapshot holding an id of 2^53 therefore gives a counter equal to a stored key, and every later insert fails with "already exists". The model's counter always exceeds every id.
- MockDb.Load: the same double rounding is not modelled; the loaded counter is the exact `max(0, max id + 1)`.
- MockDb.NextId: does not model the counter sticking at 2^53 when `++` on a double stops changing it.
- MockDb.Open: its `Valid` guarantee holds for the model's unbounded integers only; in the source it fails for snapshot ids at or above 2^53.
- Sessions.RunKeepsValid: "every insert succeeds" holds for the model's unbounded integers only; in the source inserts fail once the counter reaches 2^53 and collides with a stored key.
- DocOrder.SortDesc: the relative order of documents with equal `id` (stable, following key enumeration order) is not stated; only non-increasing order and permutation are.
- MockDb.Listing: enumerates keys in ascending order. JavaScript enumerates only array-index keys (0 to 2^32 - 2) in ascending order. Negative keys and keys of 2^32 - 1 or more come after them, in insertion order. Only the relative order of documents with equal `id` in the sorted array could depend on this, and no stated property does.
- The HTTP router (`server.js`) and the browser client (`public/app.js`) are not part of this model.

=== FILE: doc_order.dfy ===
/** Ordering of documents by `id`, descending, as the store's array view uses. */
module DocOrder {
  import opened Documents

  /** `xs` is ordered by `id` from largest to smallest (ties allowed). */
  predicate SortedDesc(xs: seq<Doc>)
  {
    forall i, j :: 0 <= i < j < |xs| ==> xs[i].id >= xs[j].id
  }

  /** Places `d` into a descending sequence, before every element whose id
      does not exceed its own. */
  function InsertDesc(d: Doc, xs: seq<Doc>): (r: seq<Doc>)
    requires SortedDesc(xs)
    ensures SortedDesc(r)
    ensures multiset(r) == multiset(xs) + multiset{d}
    ensures forall x :: x in r ==> x == d || x in xs
  {
    if |xs| == 0 || xs[0].id <= d.id then
      [d] + xs
    else
      var rest := InsertDesc(d, xs[1..]);
      assert xs == [xs[0]] + xs[1..];
      assert forall i :: 0 <= i < |rest| ==> rest[i].id <= xs[0].id by {
        forall i | 0 <= i < |rest|
          ensures rest[i].id <= xs[0].id
        {
          assert rest[i] in rest;
        }
      }
      [xs[0]] + rest
  }

  /** A stable sort by `id`, descending: the comparator `(a, b) => b.id - a.id`. */
  function SortDesc(xs: seq<Doc>): (r: seq<Doc>)
    ensures SortedDesc(r)
    ensures multiset(r) == multiset(xs)
  {
    if |xs| == 0 then []
    else
      assert xs == [xs[0]] + xs[1..];
      InsertDesc(xs[0], SortDesc(xs[1..]))
  }
}

=== FILE: documents.dfy ===
/** The documents the mock store holds and the records callers insert. */
module Documents {
  import opened Results

  /** A scalar JSON value held in a document field. */
  datatype Value = Num(n: int) | Text(s: string) | Flag(b: bool) | Null

  /** A stored document: its `id` field, kept apart, and every other field. */
  datatype Doc = Doc(id: int, fields: map<string, Value>)

  /** The record a caller passes to insert: an `id` of its own if it set one,
      and its other fields. */
  datatype Data = Data(id: Option<int>, fields: map<string, Value>)

  /** The document insert builds: `data` laid over `{ id: key }`, so every field
      of `data` survives, and a caller-supplied `id` overrides the key. */
  function Build(key: int, data: Data): (d: Doc)
    ensures d.fields == data.fields
    ensures data.id.None? ==> d.id == key
    ensures data.id.Some? ==> d.id == data.id.value
  {
    match data.id
    case None => Doc(key, data.fields)
    case Some(own) => Doc(own, data.fields)
  }
}

=== FILE: mock_db.dfy ===
/** The in-process document store `MockDB`: a mapping from integer key to
    document plus an auto-increment counter, with insert, select, delete,
    the descending array view, and loading from / dumping to a snapshot. */
module MockDb {
  import opened Results
  import opened Documents
  import opened DocOrder

  /** The store's state: the documents by key and the next id to hand out. */
  datatype Store = Store(docs: map<int, Doc>, counter: nat)

  /** The store a missing or empty snapshot yields. */
  const Empty: Store := Store(map[], 0)

  /** Every key in use lies strictly below the counter, so the counter's
      next value is always free. */
  predicate Valid(s: Store)
  {
    forall k :: k in s.docs ==> k < s.counter
  }

  /** Every document is stored under its own `id`, as loading a snapshot
      arranges it. */
  predicate IdsMatchKeys(docs: map<int, Doc>)
  {
    forall k :: k in docs ==> docs[k].id == k
  }

  // ---------------------------------------------------------------------------
  // Construction and the auto-increment getter
  // ---------------------------------------------------------------------------

  /** The constructor: a missing or empty name is rejected; otherwise the
      store is whatever the snapshot (absent when the dump file is missing)
      loads to, counter included. */
  function Open(name: Option<string>, snapshot: Option<seq<Doc>>): (r: Result<Store>)
    ensures r.Err? <==> name.None? || name.value == ""
    ensures r.Err? ==> r.error == NameRequired
    ensures r.Ok? && snapshot.None? ==> r.value == Empty
    ensures r.Ok? && snapshot.Some? ==> r.value == Load(snapshot.value)
    ensures r.Ok? ==> Valid(r.value) && IdsMatchKeys(r.value.docs)
  {
    if name.None? || name.value == "" then Err(NameRequired)
    else
      match snapshot
      case None => Ok(Empty)
      case Some(json) => LoadWellFormed(json); Ok(Load(json))
  }

  /** The `autoIncrementId` getter: yields the current counter and leaves the
      counter one larger. Under the invariant the yielded id is unused and
      the invariant survives. */
  function NextId(s: Store): (r: (int, Store))
    ensures r.0 == s.counter && r.1.counter == s.counter + 1
    ensures r.1.docs == s.docs
    ensures Valid(s) ==> r.0 !in s.docs && Valid(r.1)
  {
    (s.counter, s.(counter := s.counter + 1))
  }

  // ---------------------------------------------------------------------------
  // insert, select, delete
  // ---------------------------------------------------------------------------

  /** insert: draws the next id (consumed even when the insert fails), builds
      the document from `data`, and stores it under that id unless the id is
      occupied. The resolved value is the stored document itself. */
  function Insert(s: Store, data: Data): (r: (Result<Doc>, Store))
    ensures r.1.counter == s.counter + 1
    ensures s.counter in s.docs ==> r.0 == Err(AlreadyExists(s.counter)) && r.1.docs == s.docs
    ensures s.counter !in s.docs ==>
      && r.0.Ok?
      && r.1.docs.Keys == s.docs.Keys + {s.counter}
      && r.1.docs[s.counter] == r.0.value
      && (forall k :: k in s.docs ==> r.1.docs[k] == s.docs[k])
    ensures r.0.Ok? ==> r.0.value.fields == data.fields
    ensures r.0.Ok? && data.id.None? ==> r.0.value.id == s.counter
    ensures r.0.Ok? && data.id.Some? ==> r.0.value.id == data.id.value
    ensures Valid(s) ==> r.0.Ok? && Valid(r.1)
  {
    var (key, s1) := NextId(s);
    var doc := Build(key, data);
    if key in s1.docs then (Err(AlreadyExists(key)), s1)
    else (Ok(doc), s1.(docs := s1.docs[key := doc]))
  }

  /** select: the document stored under `k`, or a "does not exist" rejection. */
  function Select(s: Store, k: int): (r: Result<Doc>)
    ensures r.Ok? <==> k in s.docs
    ensures r.Ok? ==> r.value == s.docs[k]
    ensures r.Err? ==> r.error == DoesNotExist(k)
  {
    if k in s.docs then Ok(s.docs[k]) else Err(DoesNotExist(k))
  }

  /** delete: removes the entry under `k` if there is one and reports whether
      it did; nothing else, the counter included, changes. */
  function Delete(s: Store, k: int): (r: (bool, Store))
    ensures r.0 <==> k in s.docs
    ensures k !in r.1.docs
    ensures r.1.counter == s.counter
    ensures forall j :: j != k ==> (j in r.1.docs <==> j in s.docs)
    ensures forall j :: j in r.1.docs ==> j in s.docs && r.1.docs[j] == s.docs[j]
    ensures !r.0 ==> r.1 == s
    ensures Valid(s) ==> Valid(r.1)
  {
    if k in s.docs then (true, s.(docs := s.docs - {k})) else (false, s)
  }

  // ---------------------------------------------------------------------------
  // The array view: selectAll and the dump
  // ---------------------------------------------------------------------------

  /** How many keys of `docs` hold the document `d`. */
  function Occurrences(docs: map<int, Doc>, d: Doc): nat
  {
    |set k | k in docs && docs[k] == d|
  }

  /** A non-empty set of keys has a least element. */
  lemma {:induction false} LeastKey(ks: set<int>) returns (m: int)
    requires ks != {}
    ensures m in ks && forall j :: j in ks ==> m <= j
    decreases |ks|
  {
    assert exists e :: e in ks by {
      if forall e :: e !in ks {
        assert false;
      }
    }
    var x :| x in ks;
    var rest := ks - {x};
    if rest == {} {
      m := x;
    } else {
      var least := LeastKey(rest);
      m := if x < least then x else least;
    }
    forall j | j in ks
      ensures m <= j
    {
      if j != x { assert j in rest; }
    }
  }

  lemma LeastKeyExists(ks: set<int>)
    requires ks != {}
    ensures exists m :: m in ks && forall j :: j in ks ==> m <= j
  {
    var m := LeastKey(ks);
  }

  /** The smallest key of a non-empty key set. */
  function MinKey(ks: set<int>): (m: int)
    requires ks != {}
    ensures m in ks && forall j :: j in ks ==> m <= j
  {
    LeastKeyExists(ks);
    var m :| m in ks && forall j :: j in ks ==> m <= j; m
  }

  /** The stored documents in ascending key order, the order in which the
      object's integer-keyed properties enumerate. */
  function Listing(docs: map<int, Doc>): (r: seq<Doc>)
    ensures |r| == |docs|
    ensures forall d :: multiset(r)[d] == Occurrences(docs, d)
    decreases |docs|
  {
    if docs == map[] then []
    else
      var m := MinKey(docs.Keys);
      var rest := docs - {m};
      assert |rest| == |docs| - 1 by {
        assert rest.Keys == docs.Keys - {m};
      }
      var r := [docs[m]] + Listing(rest);
      assert forall d :: multiset(r)[d] == Occurrences(docs, d) by {
        forall d
          ensures multiset(r)[d] == Occurrences(docs, d)
        {
          OccurrencesSplit(docs, m, d);
        }
      }
      r
  }

  /** Counting a document's keys one key at a time. */
  lemma OccurrencesSplit(docs: map<int, Doc>, m: int, d: Doc)
    requires m in docs
    ensures Occurrences(docs, d) == Occurrences(docs - {m}, d) + (if docs[m] == d then 1 else 0)
  {
    var all := set k | k in docs && docs[k] == d;
    var rest := set k | k in docs - {m} && (docs - {m})[k] == d;
    if docs[m] == d {
      assert all == rest + {m};
    } else {
      assert all == rest;
    }
  }

  /** `_toArray`: every stored document, ordered by `id` from largest to
      smallest; each document occurs exactly as often as it is stored. */
  function ToArray(s: Store): (r: seq<Doc>)
    ensures |r| == |s.docs|
    ensures SortedDesc(r)
    ensures forall d :: multiset(r)[d] == Occurrences(s.docs, d)
    ensures s.docs == map[] ==> r == []
  {
    SortDesc(Listing(s.docs))
  }

  /** Membership in the array view is membership among the stored values. */
  lemma ToArrayMembers(s: Store)
    ensures forall d :: d in ToArray(s) <==> exists k :: k in s.docs && s.docs[k] == d
  {
    var r := ToArray(s);
    forall d
      ensures d in r <==> exists k :: k in s.docs && s.docs[k] == d
    {
      var ks := set k | k in s.docs && s.docs[k] == d;
      if d in r {
        assert multiset(r)[d] > 0;
        assert |ks| > 0;
        var k :| k in ks;
      }
      if exists k :: k in s.docs && s.docs[k] == d {
        var k :| k in s.docs && s.docs[k] == d;
        assert k in ks;
        assert multiset(r)[d] > 0;
      }
    }
  }

  /** selectAll: the array view; it never fails. */
  function SelectAll(s: Store): seq<Doc>
  {
    ToArray(s)
  }

  /** `_dumpToFile`: the array that would be written to the snapshot file. */
  function Dump(s: Store): seq<Doc>
  {
    ToArray(s)
  }

  // ---------------------------------------------------------------------------
  // Loading a snapshot
  // ---------------------------------------------------------------------------

  /** `_loadFromFile` over the documents of a snapshot, in array order: each
      document is placed under its own `id` (a later duplicate overwrites an
      earlier one), and the counter becomes `max(0, id + 1)` over all of them. */
  function Load(json: seq<Doc>): Store
  {
    if |json| == 0 then Empty
    else
      var prev := Load(json[..|json| - 1]);
      var doc := json[|json| - 1];
      Store(prev.docs[doc.id := doc], if doc.id + 1 > prev.counter then doc.id + 1 else prev.counter)
  }

  /** The keys loading produces are exactly the ids in the snapshot. */
  lemma {:induction false} LoadKeys(json: seq<Doc>)
    ensures forall k :: k in Load(json).docs <==> exists i :: 0 <= i < |json| && json[i].id == k
  {
    if |json| > 0 {
      var init := json[..|json| - 1];
      var doc := json[|json| - 1];
      LoadKeys(init);
      var r := Load(json);
      forall k
        ensures k in r.docs <==> exists i :: 0 <= i < |json| && json[i].id == k
      {
        if k in r.docs && k != doc.id {
          var i :| 0 <= i < |init| && init[i].id == k;
          assert json[i].id == k;
        }
        if exists i :: 0 <= i < |json| && json[i].id == k {
          var i :| 0 <= i < |json| && json[i].id == k;
          if i < |init| {
            assert init[i].id == k;
          }
        }
      }
    }
  }

  /** Later duplicates overwrite earlier ones: each key holds the last
      document of the snapshot carrying that id. */
  lemma {:induction false} LoadLastWins(json: seq<Doc>, i: int)
    requires 0 <= i < |json|
    requires forall j :: i < j < |json| ==> json[j].id != json[i].id
    ensures json[i].id in Load(json).docs && Load(json).docs[json[i].id] == json[i]
  {
    var init := json[..|json| - 1];
    if i < |init| {
      assert json[i] == init[i];
      forall j | i < j < |init|
        ensures init[j].id != init[i].id
      {
        assert init[j] == json[j];
      }
      LoadLastWins(init, i);
    }
  }

  /** Every loaded document comes from the snapshot and sits under its own id. */
  lemma {:induction false} LoadValues(json: seq<Doc>)
    ensures forall k :: k in Load(json).docs ==> Load(json).docs[k] in json
    ensures IdsMatchKeys(Load(json).docs)
  {
    if |json| > 0 {
      var init := json[..|json| - 1];
      LoadValues(init);
      forall k | k in Load(json).docs && k != json[|json| - 1].id
        ensures Load(json).docs[k] in json
      {
        assert Load(json).docs[k] in init;
      }
    }
  }

  /** The loaded counter is one past the largest id of the snapshot, and 0
      when there is none or every id is below -1. */
  lemma {:induction false} LoadCounter(json: seq<Doc>)
    ensures forall i :: 0 <= i < |json| ==> json[i].id < Load(json).counter
    ensures Load(json).counter == 0 || exists i :: 0 <= i < |json| && json[i].id + 1 == Load(json).counter
  {
    if |json| > 0 {
      var init := json[..|json| - 1];
      LoadCounter(init);
      var r := Load(json);
      forall i | 0 <= i < |json|
        ensures json[i].id < r.counter
      {
        if i < |init| {
          assert json[i] == init[i];
        }
      }
      if r.counter != 0 && r.counter != json[|json| - 1].id + 1 {
        var i :| 0 <= i < |init| && init[i].id + 1 == Load(init).counter;
        assert json[i].id + 1 == r.counter;
      }
    }
  }

  /** Loading establishes the store invariant and stores each document under
      its own id. */
  lemma {:induction false} LoadWellFormed(json: seq<Doc>)
    ensures Valid(Load(json)) && IdsMatchKeys(Load(json).docs)
  {
    LoadKeys(json);
    LoadValues(json);
    LoadCounter(json);
  }

  // ---------------------------------------------------------------------------
  // Properties relating several operations
  // ---------------------------------------------------------------------------

  /** A successful insert can be read back at the generated key, and the
      document read is `data` laid over that key. */
  lemma InsertThenSelect(s: Store, data: Data)
    requires Valid(s)
    ensures Insert(s, data).0.Ok?
    ensures Select(Insert(s, data).1, s.counter) == Insert(s, data).0
    ensures Select(Insert(s, data).1, s.counter) == Ok(Build(s.counter, data))
  {
  }

  /** Once a key is deleted, selecting it fails, and deleting it again reports
      that nothing was removed and changes nothing. */
  lemma DeleteThenSelect(s: Store, k: int)
    ensures Select(Delete(s, k).1, k) == Err(DoesNotExist(k))
    ensures Delete(Delete(s, k).1, k) == (false, Delete(s, k).1)
  {
  }

  /** Loading any array that lists exactly the stored documents, each
      carrying its own key as `id`, gives back the stored map. */
  lemma {:induction false} LoadListedDocs(docs: map<int, Doc>, r: seq<Doc>)
    requires forall i :: 0 <= i < |r| ==> r[i].id in docs && docs[r[i].id] == r[i]
    requires forall k :: k in docs ==> exists i :: 0 <= i < |r| && r[i].id == k
    ensures Load(r).docs == docs
  {
    var t := Load(r).docs;
    LoadKeys(r);
    LoadValues(r);
    forall k
      ensures k in t <==> k in docs
    {
      if k in t {
        var i :| 0 <= i < |r| && r[i].id == k;
      }
    }
    forall k | k in t
      ensures t[k] == docs[k]
    {
      var i :| 0 <= i < |r| && r[i] == t[k];
    }
  }

  /** Loading the dumped array gives back the same documents, provided every
      document sits under its own id. */
  lemma {:induction false} DumpLoadRoundTrip(s: Store)
    requires IdsMatchKeys(s.docs)
    ensures Load(Dump(s)).docs == s.docs
  {
    var r := Dump(s);
    ToArrayMembers(s);
    forall i | 0 <= i < |r|
      ensures r[i].id in s.docs && s.docs[r[i].id] == r[i]
    {
      assert r[i] in r;
    }
    forall k | k in s.docs
      ensures exists i :: 0 <= i < |r| && r[i].id == k
    {
      assert s.docs[k] in r;
    }
    LoadListedDocs(s.docs, r);
  }

  /** For any store, a dump and reload sets the counter from the documents'
      own ids: above every stored document's id, and 0 or one past one of
      them. With a caller-supplied id this can exceed the old counter. */
  lemma {:induction false} ReloadCounterFromDocIds(s: Store)
    ensures forall k :: k in s.docs ==> s.docs[k].id < Load(Dump(s)).counter
    ensures Load(Dump(s)).counter == 0 || exists k :: k in s.docs && s.docs[k].id + 1 == Load(Dump(s)).counter
  {
    var r := Dump(s);
    ToArrayMembers(s);
    LoadCounter(r);
    forall k | k in s.docs
      ensures s.docs[k].id < Load(r).counter
    {
      assert s.docs[k] in r;
    }
    var c := Load(r).counter;
    if c != 0 {
      var i :| 0 <= i < |r| && r[i].id + 1 == c;
      assert r[i] in r;
      var k :| k in s.docs && s.docs[k] == r[i];
    }
  }

  /** After a dump and a reload the counter is one past the largest stored key
      (0 when there is none or all keys are below -1): never above the old
      counter, and still above every key. */
  lemma {:induction false} ReloadCounter(s: Store)
    requires IdsMatchKeys(s.docs)
    ensures forall k :: k in s.docs ==> k < Load(Dump(s)).counter
    ensures Load(Dump(s)).counter == 0 || Load(Dump(s)).counter - 1 in s.docs
    ensures Valid(s) ==> Load(Dump(s)).counter <= s.counter
  {
    var r := Dump(s);
    DumpLoadRoundTrip(s);
    LoadWellFormed(r);
    LoadCounter(r);
    LoadKeys(r);
    var c := Load(r).counter;
    if c != 0 {
      var i :| 0 <= i < |r| && r[i].id + 1 == c;
      assert r[i].id in Load(r).docs;
    }
  }

  /** When the largest stored key is `m` (and `m` is at least -1), the
      auto-increment id resumes at `m + 1` after a dump and reload. */
  lemma ReloadResumesAfterLargestKey(s: Store, m: int)
    requires IdsMatchKeys(s.docs)
    requires m in s.docs && m >= -1
    requires forall k :: k in s.docs ==> k <= m
    ensures Load(Dump(s)).counter == m + 1
  {
    ReloadCounter(s);
  }

  /** When the top key was handed out and is no longer stored, a dump and
      reload brings the counter below its old value, so that key is handed
      out again. */
  lemma ReloadReissuesTopKey(s: Store)
    requires Valid(s) && IdsMatchKeys(s.docs)
    requires s.counter > 0 && s.counter - 1 !in s.docs
    ensures Load(Dump(s)).counter < s.counter
  {
    ReloadCounter(s);
  }

  /** After a restart the counter is `max(0, largest stored id + 1)`, which for
      documents under their own ids is the largest stored key plus one
      (0 when none is stored): a key handed out and then deleted from the top
      is handed out again after a dump and reload. */
  lemma ReloadReissuesDeletedTopKey()
    ensures
      var d := Data(None, map[]);
      var s2 := Insert(Insert(Empty, d).1, d).1;
      var s4 := Delete(Insert(s2, d).1, 2).1;
      && Insert(s2, d).0 == Ok(Doc(2, map[]))
      && Insert(Load(Dump(s4)), d).0 == Ok(Doc(2, map[]))
  {
    var d := Data(None, map[]);
    var e := Doc(0, map[]);
    var s1 := Insert(Empty, d).1;
    assert s1 == Store(map[0 := e], 1);
    var s2 := Insert(s1, d).1;
    assert s2 == Store(map[0 := e, 1 := e.(id := 1)], 2);
    var s3 := Insert(s2, d).1;
    assert s3 == Store(map[0 := e, 1 := e.(id := 1), 2 := e.(id := 2)], 3);
    var s4 := Delete(s3, 2).1;
    assert s4.docs == map[0 := e, 1 := e.(id := 1)];
    ReloadResumesAfterLargestKey(s4, 1);
    DumpLoadRoundTrip(s4);
  }

  /** A caller-supplied `id` overrides the generated one inside the document,
      while the document is still stored under the generated key; a dump and
      reload then moves it to the key its `id` names. */
  lemma CallerIdMovesDocumentOnReload()
    ensures
      var (res, s1) := Insert(Empty, Data(Some(7), map[]));
      && res == Ok(Doc(7, map[]))
      && s1.docs == map[0 := Doc(7, map[])]
      && Load(Dump(s1)).docs == map[7 := Doc(7, map[])]
      && s1.counter == 1 && Load(Dump(s1)).counter == 8
  {
    var doc := Doc(7, map[]);
    var s1 := Insert(Empty, Data(Some(7), map[])).1;
    assert s1.docs == map[0 := doc];
    var r := Dump(s1);
    ToArrayMembers(s1);
    LoadKeys(r);
    LoadValues(r);
    assert |r| == 1;
    assert r[0] in r;
    assert r[0] == doc;
    var t := Load(r).docs;
    forall k
      ensures k in t <==> k == 7
    {
      if k in t {
        var i :| 0 <= i < |r| && r[i].id == k;
      }
      if k == 7 {
        assert r[0].id == 7;
      }
    }
    assert t.Keys == {7};
    assert t[7] in r;
    ReloadCounterFromDocIds(s1);
  }

  /** Documents that all carry one `id`, whatever keys hold them, reload as a
      single entry under that `id` holding one of them. */
  lemma {:induction false} SharedIdCollapsesOnReload(s: Store, x: int)
    requires s.docs != map[]
    requires forall k :: k in s.docs ==> s.docs[k].id == x
    ensures Load(Dump(s)).docs.Keys == {x}
    ensures Load(Dump(s)).docs[x] in s.docs.Values
  {
    var r := Dump(s);
    ToArrayMembers(s);
    LoadKeys(r);
    LoadValues(r);
    var k0 :| k0 in s.docs;
    assert s.docs[k0] in r;
    var t := Load(r).docs;
    forall k
      ensures k in t <==> k == x
    {
      if k in t {
        var i :| 0 <= i < |r| && r[i].id == k;
        assert r[i] in r;
      }
      if k == x {
        var i :| 0 <= i < |r| && r[i] == s.docs[k0];
      }
    }
    assert t[x] in r;
  }

  /** Two inserts carrying the same caller-supplied `id` are kept under two
      keys while the store runs, but a dump and reload collapses them into a
      single entry under that `id`: one of the two documents is lost. */
  lemma SameCallerIdCollapsesOnReload()
    ensures
      var a := Doc(7, map["n" := Num(1)]);
      var b := Doc(7, map["n" := Num(2)]);
      var s2 := Insert(Insert(Empty, Data(Some(7), a.fields)).1, Data(Some(7), b.fields)).1;
      && s2.docs == map[0 := a, 1 := b]
      && Load(Dump(s2)).docs.Keys == {7}
      && (Load(Dump(s2)).docs[7] == a || Load(Dump(s2)).docs[7] == b)
  {
    var a := Doc(7, map["n" := Num(1)]);
    var b := Doc(7, map["n" := Num(2)]);
    var s2 := Insert(Insert(Empty, Data(Some(7), a.fields)).1, Data(Some(7), b.fields)).1;
    assert s2.docs == map[0 := a, 1 := b];
    CollapsePair(s2, a, b);
  }

  /** Two documents with `id` 7 under keys 0 and 1 reload as one of them under key 7. */
  lemma CollapsePair(s: Store, a: Doc, b: Doc)
    requires s.docs == map[0 := a, 1 := b] && a.id == 7 && b.id == 7
    ensures Load(Dump(s)).docs.Keys == {7}
    ensures Load(Dump(s)).docs[7] == a || Load(Dump(s)).docs[7] == b
  {
    SharedIdCollapsesOnReload(s, 7);
    var kept := Load(Dump(s)).docs[7];
    var k :| k in s.docs && s.docs[k] == kept;
  }
}

=== FILE: results.dfy ===
/** Success and failure values for the store's operations, standing in for
    the settled promises the JavaScript store hands back. */
module Results {

  /** A value that may be absent (a missing argument or a missing snapshot file). */
  datatype Option<+T> = None | Some(value: T)

  /** The store's domain errors, one constructor per thrown message (the
      message text is shown beside each). */
  datatype Error =
    | NameRequired            // "Database name is required"
    | AlreadyExists(id: int)  // Document with id "<id>" already exists!
    | DoesNotExist(id: int)   // Document with id "<id>" does not exist!

  /** A resolved promise (`Ok`) or a rejected one (`Err`). */
  datatype Result<+T> = Ok(value: T) | Err(error: Error)
}

=== FILE: sessions.dfy ===
/** A client's operations on one store, issued one after another; each runs
    to completion before the next starts, as on the single JavaScript thread. */
module Sessions {
  import opened Results
  import opened Documents
  import opened MockDb

  /** One call on the store. */
  datatype Op = InsertOp(data: Data) | SelectOp(key: int) | SelectAllOp | DeleteOp(key: int)

  /** What the call resolved or rejected with. */
  datatype Reply =
    | Inserted(doc: Result<Doc>)
    | Selected(doc: Result<Doc>)
    | Listed(docs: seq<Doc>)
    | Deleted(success: bool)

  /** Runs one call. Only insert moves the counter, and every call keeps the
      store invariant. */
  function Step(s: Store, op: Op): (r: (Reply, Store))
    ensures r.1.counter == s.counter + (if op.InsertOp? then 1 else 0)
    ensures Valid(s) ==> Valid(r.1)
    ensures r.0.Inserted? <==> op.InsertOp?
    ensures Valid(s) && op.InsertOp? ==> s.counter in r.1.docs && r.0 == Inserted(Ok(r.1.docs[s.counter]))
    ensures forall k :: k in r.1.docs ==> k in s.docs || (op.InsertOp? && k == s.counter)
  {
    match op
    case InsertOp(data) =>
      var (res, next) := Insert(s, data);
      (Inserted(res), next)
    case SelectOp(k) => (Selected(Select(s, k)), s)
    case SelectAllOp => (Listed(SelectAll(s)), s)
    case DeleteOp(k) =>
      var (removed, next) := Delete(s, k);
      (Deleted(removed), next)
  }

  /** Runs the calls in order, collecting one reply per call. */
  function Run(s: Store, ops: seq<Op>): (seq<Reply>, Store)
    decreases |ops|
  {
    if |ops| == 0 then ([], s)
    else
      var (reply, next) := Step(s, ops[0]);
      var (replies, final) := Run(next, ops[1..]);
      ([reply] + replies, final)
  }

  /** The number of insert calls. */
  function InsertCount(ops: seq<Op>): nat
    decreases |ops|
  {
    if |ops| == 0 then 0
    else (if ops[0].InsertOp? then 1 else 0) + InsertCount(ops[1..])
  }

  /** The ids the auto-increment getter yields during a run, in order: one per
      insert call, whether the insert then succeeds or not. */
  function IssuedKeys(s: Store, ops: seq<Op>): seq<int>
    decreases |ops|
  {
    if |ops| == 0 then []
    else (if ops[0].InsertOp? then [s.counter] else []) + IssuedKeys(Step(s, ops[0]).1, ops[1..])
  }

  /** Every insert consumes exactly one id: the ids handed out are the
      consecutive integers from the starting counter, and the counter ends
      one past the last of them. */
  lemma {:induction false} IssuedKeysConsecutive(s: Store, ops: seq<Op>)
    ensures Run(s, ops).1.counter == s.counter + InsertCount(ops)
    ensures IssuedKeys(s, ops) == seq(InsertCount(ops), i => s.counter + i)
    decreases |ops|
  {
    if |ops| > 0 {
      var next := Step(s, ops[0]).1;
      IssuedKeysConsecutive(next, ops[1..]);
    }
  }

  /** No id is handed out twice: the ids increase strictly in call order and
      all lie between the starting and the final counter. */
  lemma IssuedKeysIncrease(s: Store, ops: seq<Op>)
    ensures forall i, j :: 0 <= i < j < |IssuedKeys(s, ops)| ==> IssuedKeys(s, ops)[i] < IssuedKeys(s, ops)[j]
    ensures forall i :: 0 <= i < |IssuedKeys(s, ops)| ==> s.counter <= IssuedKeys(s, ops)[i] < Run(s, ops).1.counter
    ensures s.counter <= Run(s, ops).1.counter
  {
    IssuedKeysConsecutive(s, ops);
  }

  /** From a store that keeps the invariant, every call in a run keeps it,
      every insert succeeds, there is one reply per call, and every key at the
      end was there at the start or was handed out during the run. */
  lemma {:induction false} RunKeepsValid(s: Store, ops: seq<Op>)
    requires Valid(s)
    ensures Valid(Run(s, ops).1)
    ensures |Run(s, ops).0| == |ops|
    ensures forall i :: 0 <= i < |ops| && ops[i].InsertOp? ==> Run(s, ops).0[i].Inserted? && Run(s, ops).0[i].doc.Ok?
    ensures forall k :: k in Run(s, ops).1.docs ==> k in s.docs || k in IssuedKeys(s, ops)
    decreases |ops|
  {
    if |ops| > 0 {
      var (reply, next) := Step(s, ops[0]);
      RunKeepsValid(next, ops[1..]);
      var replies := Run(s, ops).0;
      assert replies == [reply] + Run(next, ops[1..]).0;
      forall i | 0 <= i < |ops| && ops[i].InsertOp?
        ensures replies[i].Inserted? && replies[i].doc.Ok?
      {
        if i > 0 {
          assert ops[i] == ops[1..][i - 1];
        }
      }
    }
  }
}
